=== FILE: README.md ===
# RandomPlayer bookkeeping, modelled in Dafny

RandomPlayer is a small Qt audio player whose window shows a list of media
file paths. This project models the logic inside its `MainWindow`, without
Qt, as pure functions over a `seq<string>` playlist:

- **Playlist text format** (`playlist_file.dfy`, module `PlaylistFile`).
  `savePlaylist` writes each entry followed by the platform line terminator.
  `loadPlaylist` reads lines until the end of the file and replaces the whole
  list. A file that cannot be opened makes either operation report failure.
- **List edits** (`playlist_edit.dfy`, module `PlaylistEdit`). `addFiles`
  appends a batch. `onRemoveFiles` sorts the selected rows and removes them
  from the highest to the lowest. The removal is a loop whose invariant ties
  every partial result to the reference `KeepUnselected`, which keeps exactly
  the entries whose position is not selected.
- **Playback control** (`playback.dfy`, module `Playback`). The start button
  toggles between stopped and playing (an empty list leaves the player
  stopped). Starting sets the delay to the base
  value times 1000. It hands the player a copy of the list and the start
  position `r * n / RAND_MAX`. The speed-up button sets the delay to
  `floor(delay / 1.25)`.
- **Drop filter** (`drop_filter.dfy`, module `DropFilter`). `dragEnterEvent`
  and `dropEvent` accept a batch only when the dragged data carries URLs and
  every URL is a local file with suffix exactly `mp3` or `aac`. An accepted
  drop appends the absolute paths in URL order.

I/O and randomness are parameters:
- A file to load is `Unopenable` or `Contents(text)`.
- A save takes a `canOpen` flag and returns the text it wrote.
- The random value `r` and `RAND_MAX` are arguments.
- The absolute-path conversion is a function argument `absolute`.
- The line terminator is a `LineEnding` argument: `LF`, or `CRLF` as a
  text-mode file writes on Windows. Under `CRLF` every '\n' written becomes
  "\r\n", including one inside an entry.

Two behaviours of the code are easy to miss:
- Pressing start with an empty list sets the delay and hands the player an
  empty playlist, but Qt's `QMediaPlayer::play()` only starts on a
  non-empty playlist. The player stays stopped, so the next press starts
  again instead of stopping. `Playback.StartPlay` models this. Its start
  position is then 0, one past the end, which `StartIndexPastEnd` states.
- A URL list that is present but empty is accepted and adds nothing,
  because `hasUrls()` tests for the format, not the count. `MimeData` keeps
  that flag separately from the URLs.

## Model

| member | source | states |
|---|---|---|
| `PlaylistFile.Translate` | mainwindow.cpp:154-159 | the text-mode file writes an entry unchanged under `LF`, and unchanged under either ending when it has no line feed; it never gets shorter |
| `PlaylistFile.TranslateInnerLineFeed` | mainwindow.cpp:154-159 | under `CRLF` the entry "a\nb" is written as "a\r\nb" |
| `PlaylistFile.Serialise` | mainwindow.cpp:157-160 | the saved text is empty exactly when the list is empty, and non-empty text ends with a line feed |
| `PlaylistFile.Terminator` | mainwindow.cpp:159 | the terminator `endl` writes ends in a line feed, and only carriage returns come before it |
| `PlaylistFile.Parse` | mainwindow.cpp:141-145 | reading lines until the end gives no lines exactly for empty text, never more lines than characters, and no line contains a line feed |
| `PlaylistFile.ParseSerialise` | mainwindow.cpp:143-160 | for entries with no '\n' or '\r' (empty entries included), reading back what save wrote gives the identical list, with either line ending |
| `PlaylistFile.SerialiseParse` | mainwindow.cpp:143-160 | the reverse direction: a file of '\n'-terminated lines without carriage returns is reproduced exactly by load then save, and its lines contain no line breaks |
| `PlaylistFile.UnterminatedLine` | mainwindow.cpp:143-145 | a last line without a terminator is still read as an entry |
| `PlaylistFile.CrLfWithoutFinalTerminator` | mainwindow.cpp:143-145 | a Windows file whose last line has no terminator loads as its two lines, with the carriage return dropped |
| `PlaylistFile.LoadPlaylist` | mainwindow.cpp:135-149 | an open failure returns false and leaves the list unchanged; success returns true, and the parsed lines of the file replace the list whatever it held |
| `PlaylistFile.SavePlaylist` | mainwindow.cpp:151-160 | save succeeds exactly when the file opens, and then writes exactly the serialised list (each entry, with its line feeds translated, followed by the terminator), which is empty exactly when the list is |
| `PlaylistFile.SaveThenLoad` | mainwindow.cpp:135-160 | loading a saved line-break-free list into any window succeeds and restores exactly that list |
| `PlaylistEdit.AddFiles` | mainwindow.cpp:169-176 | the result has the old entries first and then the batch, both in their own order, with lengths adding up and duplicates kept (multiset sum) |
| `PlaylistEdit.SortRows` | mainwindow.cpp:105 | sorting the selection gives the same rows (multiset) in ascending order, strictly ascending when the rows are distinct |
| `PlaylistEdit.RemoveStep` | mainwindow.cpp:106-107 | when every row already removed lies above the next row, deleting that row of the partial result equals adding it to the removed set; a row outside the list changes nothing |
| `PlaylistEdit.RemoveRows` | mainwindow.cpp:101-109 | descending removal of distinct rows leaves exactly the entries at unselected positions, in order; with all rows in range, the length drops by the number of rows |
| `PlaylistEdit.RemoveExample` | mainwindow.cpp:101-109 | removing rows {2, 0} from [a, b, c] leaves [b] |
| `PlaylistEdit.RemoveAppended` | mainwindow.cpp:172-174 | removing the rows an append created gives back the list as it was before the append |
| `PlaylistEdit.RemoveNothing` | mainwindow.cpp:101-109 | an empty selection removes nothing |
| `Playback.StartIndex` | mainwindow.cpp:121 | the start position for `0 <= r <= RAND_MAX` lies in `[0, n]` |
| `Playback.StartIndexPastEnd` | mainwindow.cpp:121 | the start position is `n` (one past the last entry) exactly when `r == RAND_MAX` or the list is empty, and names an entry otherwise |
| `Playback.StartPlay` | mainwindow.cpp:111-128 | from Stopped: delay = base × 1000, queue = the current list with start position `r * n / RAND_MAX` (which lies in `[0, n]`), and Playing exactly when the list is non-empty (otherwise still Stopped); from any other state: Stopped, with delay and queue untouched |
| `Playback.StartTwice` | mainwindow.cpp:111-128 | with a non-empty list, two presses from Stopped end Stopped keeping the first press's delay and queue, and two presses from another state end Playing a fresh copy; with an empty list two presses leave it Stopped with the new delay and an empty queue |
| `Playback.SpeedUpDelay` | mainwindow.cpp:130-133 | the new delay is the floor of delay / 1.25; for a non-negative delay it stays non-negative and never grows, and a positive delay strictly shrinks |
| `Playback.SpeedUp` | mainwindow.cpp:130-133 | speed-up sets the delay to `floor(delay / 1.25)` and changes nothing else; it never raises a non-negative delay or makes it negative |
| `Playback.SpeedUpThreeTimes` | mainwindow.cpp:132 | three speed-ups of 1000 give 512 |
| `Playback.SpeedUpsMonotone` | mainwindow.cpp:132 | for a non-negative delay, more speed-up presses never give a longer delay, and the delay never drops below 0 |
| `Playback.DelayStaysNonNegative` | mainwindow.cpp:111-133 | with non-negative base delays, every sequence of start/stop and speed-up presses keeps the delay non-negative |
| `Playback.InitialDelayNonNegative` | mainwindow.h:40 | from a freshly constructed window (delay 0), no sequence of presses with non-negative base delays makes the delay negative |
| `DropFilter.LastIndexOfIs` | mainwindow.cpp:196-198 | the search for the last separator returns exactly the position that holds it with none after it, or -1 when there is none |
| `DropFilter.FileName` | mainwindow.cpp:196-198 | the file name `QFileInfo` works on is no longer than the path |
| `DropFilter.NameInPath` | mainwindow.cpp:196-198 | the file name is the tail of the path after the last '/', and holds no '/' |
| `DropFilter.Suffix` | mainwindow.cpp:196-198 | the suffix is no longer than the file name, and strictly shorter when non-empty (a '.' precedes it) |
| `DropFilter.SuffixInName` | mainwindow.cpp:196-198 | the suffix is the tail of the file name after its last '.', holds no '.', and is empty only when the name has no '.' or ends with one |
| `DropFilter.SuffixShape` | mainwindow.cpp:196-198 | the suffix is a tail of the path with no '.' or '/'; a non-empty suffix follows a '.', and an empty one means the file name has no '.' or the path ends with '.' |
| `DropFilter.SuffixExamples` | mainwindow.cpp:196-198 | "/music/song.mp3" has suffix "mp3"; a dot in a directory name is no suffix; "MP3" is rejected (case-sensitive) |
| `DropFilter.ToLocalFile` | mainwindow.cpp:196 | a local-file URL gives its path; any other URL gives the empty string, as `toLocalFile()` does |
| `DropFilter.ScanUrls` | mainwindow.cpp:191-202 | the drag-enter loop passes exactly when every URL is a local file with suffix mp3 or aac |
| `DropFilter.DragEnter` | mainwindow.cpp:185-204 | a drag is accepted exactly when the data has URLs and all of them pass the filter |
| `DropFilter.CollectPaths` | mainwindow.cpp:212-225 | the drop loop collects paths exactly when every URL passes, and then yields the absolute path of each URL, in URL order |
| `DropFilter.AbsolutePaths` | mainwindow.cpp:224 | one absolute path per URL, the i-th being the conversion of the i-th URL's local path |
| `DropFilter.Drop` | mainwindow.cpp:206-228 | a drop is accepted exactly when the batch passes; a rejected drop leaves the list unchanged; an accepted one appends one absolute path per URL, in URL order, after the old entries |
| `DropFilter.DragEnterMatchesDrop` | mainwindow.cpp:185-228 | the drag-enter test accepts exactly the batches the drop admits |
| `DropFilter.OneBadUrlRejectsAll` | mainwindow.cpp:213-223 | one URL that is non-local or has another suffix makes the drop add nothing |

## Left out

- Qt widgets, `ui` setup, signal wiring and the current-index restoration in `addFiles` are GUI plumbing with no effect on the list.
- The file dialogs, the last-directory setting and the dialog filter strings are outside the model. The filter strings are constants with no behaviour.
- The auto-load at startup and the save on close are not modelled. Both are file-system I/O around `loadPlaylist` and `savePlaylist`, which are modelled.
- The multimedia player and its playlist are not modelled beyond staying stopped on an empty playlist: decoding, output, the engine's `Random` traversal, and what it does with an out-of-range start position. `Queue` records only what the window hands it.
- `qrand()` is not modelled. The random value `r` and `RAND_MAX` are parameters.
- `Playback.StartIndex`: does not model the 32-bit overflow of `qrand() * size`. Mathematical integers are used instead. With glibc's `RAND_MAX` the C++ product overflows for lists of two or more entries.
- `Playback.StartPlay`: does not model the 32-bit overflow of `value() * 1000` for the base delay. The product is a mathematical integer. `DelayStaysNonNegative` and `InitialDelayNonNegative` require non-negative bases. They carry over to the program only for bases from 0 to 2147483, where the product does not overflow. That range is an assumption about the spin box, which is configured outside the modelled code.
- `Playback.SpeedUpDelay`: does not model the double-precision division. It uses the exact `(4 * delay) / 5` instead. For every 32-bit `delay` this equals `floor(delay / 1.25)`.
- `PlaylistFile.ParseSerialise`: does not model the text codec. `QTextStream` encodes through the locale codec, which on Windows is the ANSI code page. Characters the code page cannot represent are written as '?', and a U+FEFF at the start of the first entry is read back as a byte-order mark and dropped. The model treats characters as written and read unchanged.
- `PlaylistFile.SavePlaylist`: assumes every write after a successful open lands. The source returns true once the file opens, even if later writes fail; a short or failed write is not modelled.
- `PlaylistFile.Parse`: models the line reader only as stripping a carriage return before a line feed or at the end of the text. Any other text-mode translation of carriage returns is not modelled.
- The read-back loop after writing in `savePlaylist` is not modelled. It reads from a write-only file and has no effect.
- The commented-out per-track delay in `connectSignals` is not modelled because it is dead code.
- The file name is taken after the last '/'. `QFileInfo`'s treatment of Windows separators and of a trailing '/' is not modelled.
- `mainwindow.h` and `main.cpp` hold only declarations and application start-up, apart from the initial `delay = 0`, which `Playback.Initial` models.
- `PlaylistEdit.RemoveRows`: requires distinct rows, as the view's `selectedRows()` supplies them. A repeated row would be removed twice.

=== FILE: drop_filter.dfy ===
/** The drag-and-drop filter of the main window.  A drag is accepted, and a
    drop admitted, only when the dragged data carries URLs and every one of
    them is a local file whose suffix is exactly "mp3" or "aac"; a drop then
    appends the absolute paths of those files in URL order.  One bad URL
    rejects the whole batch.
 */
module DropFilter {
  import PlaylistEdit

  /** A dragged URL: a local file with its path, or anything else. */
  datatype Url = LocalFile(path: string) | NonLocal

  /** `toLocalFile`: the path of a local file, empty for any other URL. */
  function ToLocalFile(url: Url): (p: string)
    ensures url.LocalFile? ==> p == url.path
    ensures url.NonLocal? ==> p == ""
  {
    match url
    case LocalFile(path) => path
    case NonLocal => ""
  }

  /** The dragged data: whether it carries a URL list at all, and the URLs. */
  datatype MimeData = MimeData(hasUrls: bool, urls: seq<Url>)

  /** Position of the last `c` in `s`, or -1 when there is none. */
  function LastIndexOf(s: string, c: char): (k: int)
    ensures -1 <= k < |s|
  {
    if s == [] then -1
    else if s[|s| - 1] == c then |s| - 1
    else LastIndexOf(s[..|s| - 1], c)
  }

  /** `LastIndexOf` finds an occurrence of `c`, with none after it. */
  lemma {:induction false} LastIndexOfFinds(s: string, c: char)
    ensures var k := LastIndexOf(s, c);
            (k >= 0 ==> s[k] == c) && forall i :: k < i < |s| ==> s[i] != c
  {
    if s != [] && s[|s| - 1] != c {
      var init := s[..|s| - 1];
      LastIndexOfFinds(init, c);
      assert forall i :: 0 <= i < |init| ==> init[i] == s[i];
    }
  }

  /** The only position that is an occurrence of `c` with none after it is
      the one `LastIndexOf` returns. */
  lemma {:induction false} LastIndexOfIs(s: string, c: char, k: int)
    requires -1 <= k < |s| && (k >= 0 ==> s[k] == c)
    requires forall i :: k < i < |s| ==> s[i] != c
    ensures LastIndexOf(s, c) == k
  {
    if s != [] && s[|s| - 1] != c {
      var init := s[..|s| - 1];
      assert forall i :: k < i < |init| ==> init[i] == s[i];
      LastIndexOfIs(init, c, k);
    }
  }

  /** The file name: everything after the last '/'. */
  function FileName(path: string): (name: string)
    ensures |name| <= |path|
  {
    path[LastIndexOf(path, '/') + 1..]
  }

  /** The file suffix: the characters of the file name after its last '.',
      or nothing when the name has no '.'. */
  function Suffix(path: string): (suffix: string)
    ensures |suffix| <= |FileName(path)|
    ensures suffix != "" ==> |suffix| < |FileName(path)|
  {
    var name := FileName(path);
    var dot := LastIndexOf(name, '.');
    if dot < 0 then "" else name[dot + 1..]
  }

  /** The text after position `k`: a tail of `s` that, when `k` is the last
      occurrence of `c`, holds no `c`. */
  lemma AfterLast(s: string, c: char)
    ensures var k := LastIndexOf(s, c);
            var tail := s[k + 1..];
            c !in tail && tail == s[|s| - |tail|..]
            && (k >= 0 ==> |tail| < |s| && s[|s| - |tail| - 1] == c)
  {
    LastIndexOfFinds(s, c);
    var k := LastIndexOf(s, c);
    var tail := s[k + 1..];
    forall i | 0 <= i < |tail| ensures tail[i] != c {
      assert tail[i] == s[k + 1 + i];
    }
    assert |s| - |tail| == k + 1;
  }

  /** A tail of a tail is a tail, and keeps out what the outer tail keeps out. */
  lemma TailOfTail(s: string, t: string, u: string)
    requires |t| <= |s| && t == s[|s| - |t|..]
    requires |u| <= |t| && u == t[|t| - |u|..]
    ensures u == s[|s| - |u|..]
    ensures forall c :: c !in t ==> c !in u
  {
    assert forall i :: 0 <= i < |u| ==> u[i] == t[|t| - |u| + i] == s[|s| - |u| + i];
  }

  /** The suffix is a tail of the file name: after its last '.', or empty
      when the name has no '.'. */
  lemma SuffixInName(path: string)
    ensures var name := FileName(path);
            var suffix := Suffix(path);
            '.' !in suffix && |suffix| <= |name| && suffix == name[|name| - |suffix|..]
            && (suffix != "" ==> |suffix| < |name| && name[|name| - |suffix| - 1] == '.')
            && (suffix == "" ==> '.' !in name || name[|name| - 1] == '.')
  {
    var name := FileName(path);
    AfterLast(name, '.');
    if LastIndexOf(name, '.') < 0 {
      assert '.' !in name;
    }
  }

  /** The file name is a tail of the path without '/'. */
  lemma NameInPath(path: string)
    ensures var name := FileName(path);
            '/' !in name && |name| <= |path| && name == path[|path| - |name|..]
  {
    AfterLast(path, '/');
  }

  /** The suffix ends the path and holds no '.' or '/'; a non-empty suffix
      follows a '.', and an empty one means the file name has no '.' or the
      path ends with one. */
  lemma SuffixShape(path: string)
    ensures var suffix := Suffix(path);
            '.' !in suffix && '/' !in suffix
            && |suffix| <= |path| && suffix == path[|path| - |suffix|..]
            && (suffix != "" ==> |suffix| < |path| && path[|path| - |suffix| - 1] == '.')
            && (suffix == "" ==> '.' !in FileName(path) || path[|path| - 1] == '.')
  {
    var name := FileName(path);
    var suffix := Suffix(path);
    NameInPath(path);
    SuffixInName(path);
    TailOfTail(path, name, suffix);
    if suffix != "" {
      var dotted := name[|name| - |suffix| - 1..];
      TailOfTail(path, name, dotted);
      assert path[|path| - |suffix| - 1] == dotted[0];
    } else if name != "" {
      assert path[|path| - 1] == name[|name| - 1];
    }
  }

  /** The comparison is exact: "MP3" is not "mp3". */
  predicate AcceptedSuffix(suffix: string) {
    suffix == "mp3" || suffix == "aac"
  }

  predicate AcceptableUrl(url: Url) {
    url.LocalFile? && AcceptedSuffix(Suffix(ToLocalFile(url)))
  }

  predicate AllAcceptable(urls: seq<Url>) {
    forall i :: 0 <= i < |urls| ==> AcceptableUrl(urls[i])
  }

  /** Declarative meaning of the filter: URLs are present and all of them
      are acceptable. */
  predicate AcceptableBatch(data: MimeData) {
    data.hasUrls && AllAcceptable(data.urls)
  }

  lemma AllAcceptableStep(urls: seq<Url>)
    requires urls != []
    ensures AllAcceptable(urls) <==> AcceptableUrl(urls[0]) && AllAcceptable(urls[1..])
  {
    assert forall i :: 1 <= i < |urls| ==> urls[i] == urls[1..][i - 1];
  }

  /** The loop of `dragEnterEvent`: stop at the first URL that is not a
      local file or has another suffix. */
  function ScanUrls(urls: seq<Url>): (ok: bool)
    ensures ok <==> AllAcceptable(urls)
  {
    if urls == [] then true
    else
      AllAcceptableStep(urls);
      if !urls[0].LocalFile? || !AcceptedSuffix(Suffix(ToLocalFile(urls[0]))) then false
      else ScanUrls(urls[1..])
  }

  /** `dragEnterEvent`: whether the proposed action is accepted. */
  function DragEnter(data: MimeData): (accept: bool)
    ensures accept <==> AcceptableBatch(data)
  {
    data.hasUrls && ScanUrls(data.urls)
  }

  /** What the loop of `dropEvent` produces: a rejection, or the list of
      absolute paths collected so far. */
  datatype Collected = Rejected | Paths(files: seq<string>)

  /** The loop of `dropEvent`: collect the absolute path of each URL in
      order, and give up at the first URL that fails the filter.  The
      absolute-path conversion belongs to the file system and is a parameter. */
  function CollectPaths(urls: seq<Url>, absolute: string -> string): (c: Collected)
    ensures c.Paths? <==> AllAcceptable(urls)
    ensures c.Paths? ==> c.files == AbsolutePaths(urls, absolute)
  {
    if urls == [] then Paths([])
    else
      AllAcceptableStep(urls);
      if !AcceptableUrl(urls[0]) then Rejected
      else
        match CollectPaths(urls[1..], absolute)
        case Rejected => Rejected
        case Paths(rest) => Paths([absolute(ToLocalFile(urls[0]))] + rest)
  }

  /** The absolute path of every URL, in URL order. */
  function AbsolutePaths(urls: seq<Url>, absolute: string -> string): (paths: seq<string>)
    ensures |paths| == |urls|
    ensures forall i :: 0 <= i < |urls| ==> paths[i] == absolute(ToLocalFile(urls[i]))
  {
    if urls == [] then []
    else
      var rest := AbsolutePaths(urls[1..], absolute);
      assert forall i :: 1 <= i < |urls| ==> urls[i] == urls[1..][i - 1];
      [absolute(ToLocalFile(urls[0]))] + rest
  }

  datatype DropResult = DropResult(accepted: bool, entries: seq<string>)

  /** `dropEvent`: an accepted batch is appended to the list with
      `addFiles`; a rejected one leaves the list as it was. */
  function Drop(entries: seq<string>, data: MimeData, absolute: string -> string): (r: DropResult)
    ensures r.accepted <==> AcceptableBatch(data)
    ensures !r.accepted ==> r.entries == entries
    ensures r.accepted ==>
              |r.entries| == |entries| + |data.urls|
              && r.entries[..|entries|] == entries
              && forall i :: 0 <= i < |data.urls| ==> r.entries[|entries| + i] == absolute(ToLocalFile(data.urls[i]))
  {
    if !data.hasUrls then DropResult(false, entries)
    else
      match CollectPaths(data.urls, absolute)
      case Rejected => DropResult(false, entries)
      case Paths(files) => DropResult(true, PlaylistEdit.AddFiles(entries, files))
  }

  /** The drag-enter test and the drop test agree: a drop is admitted exactly
      when the drag that led to it was accepted. */
  lemma DragEnterMatchesDrop(entries: seq<string>, data: MimeData, absolute: string -> string)
    ensures Drop(entries, data, absolute).accepted == DragEnter(data)
  {
  }

  /** All-or-nothing: a single URL that fails the filter adds nothing, even
      when every other URL is acceptable. */
  lemma OneBadUrlRejectsAll(entries: seq<string>, data: MimeData, absolute: string -> string, bad: nat)
    requires bad < |data.urls| && !AcceptableUrl(data.urls[bad])
    ensures Drop(entries, data, absolute) == DropResult(false, entries)
  {
  }

  /** Suffixes as the filter sees them. */
  lemma SuffixExamples()
    ensures Suffix("/music/song.mp3") == "mp3"
    ensures Suffix("/music.d/track") == ""
    ensures !AcceptedSuffix(Suffix("/music/SONG.MP3"))
  {
    var p1 := "/music/song.mp3";
    LastIndexOfIs(p1, '/', 6);
    assert FileName(p1) == "song.mp3";
    LastIndexOfIs("song.mp3", '.', 4);
    var p2 := "/music.d/track";
    LastIndexOfIs(p2, '/', 8);
    assert FileName(p2) == "track";
    LastIndexOfIs("track", '.', -1);
    var p3 := "/music/SONG.MP3";
    LastIndexOfIs(p3, '/', 6);
    assert FileName(p3) == "SONG.MP3";
    LastIndexOfIs("SONG.MP3", '.', 4);
  }
}

=== FILE: playback.dfy ===
/** The playback control of the main window: the start button toggles
    between stopped and playing, starting hands a snapshot of the list to the
    player together with a random start position, and the speed-up button
    shortens the inter-track delay by a factor of 1.25.
 */
module Playback {

  /** The player's own states; only `Stopped` is tested by the start button. */
  datatype PlayerState = Stopped | Playing | Paused

  /** What the player was last given: nothing yet, or a copy of the list and
      the start position requested for it. */
  datatype Queue = NoQueue | Queue(entries: seq<string>, startIndex: int)

  datatype Player = Player(state: PlayerState, delay: int, queue: Queue)

  /** A freshly constructed window: stopped, delay 0, nothing queued. */
  const Initial := Player(Stopped, 0, NoQueue)

  /** The start position `r * n / RAND_MAX` for a random `r` in
      `[0, RAND_MAX]`; all operands are non-negative, so C++'s truncating
      division agrees with Dafny's. */
  function StartIndex(r: int, count: nat, randMax: int): (index: int)
    requires 0 < randMax && 0 <= r <= randMax
    ensures 0 <= index <= count
  {
    assert 0 <= r * count <= randMax * count;
    r * count / randMax
  }

  /** The start position is one past the last entry exactly when the random
      value is `RAND_MAX` itself or the list is empty; otherwise it names an
      entry. */
  lemma StartIndexPastEnd(r: int, count: nat, randMax: int)
    requires 0 < randMax && 0 <= r <= randMax
    ensures StartIndex(r, count, randMax) == count <==> (r == randMax || count == 0)
    ensures StartIndex(r, count, randMax) < count <==> (r < randMax && count > 0)
  {
    var product := r * count;
    if r == randMax {
      assert product == count * randMax;
      DivisionBounds(product, randMax, count);
      DivisionBounds(product, randMax, count + 1);
    } else if count > 0 {
      assert product <= (randMax - 1) * count by {
        MultiplyMonotone(r, randMax - 1, count);
      }
      assert product < count * randMax;
      DivisionBounds(product, randMax, count);
    }
  }

  lemma MultiplyMonotone(a: int, b: int, c: nat)
    requires a <= b
    ensures a * c <= b * c
  {
    assert b * c - a * c == (b - a) * c;
  }

  /** `p / d` is below `c` exactly when `p` is below `c * d`. */
  lemma DivisionBounds(p: int, d: int, c: int)
    requires 0 <= p && 0 < d
    ensures p / d < c <==> p < c * d
  {
    var q := p / d;
    assert p == q * d + p % d;
    if q < c {
      MultiplyMonotone(q, c - 1, d);
      assert (c - 1) * d == c * d - d;
    } else {
      MultiplyMonotone(c, q, d);
    }
  }

  /** `onStartPlay`: from `Stopped`, set the delay to `baseSeconds * 1000`,
      queue a copy of the list with a random start position and ask the
      player to play, which it does only when the list is non-empty; from any
      other state, just stop. */
  function StartPlay(p: Player, entries: seq<string>, baseSeconds: int, r: int, randMax: int): (q: Player)
    requires 0 < randMax && 0 <= r <= randMax
    ensures q.state == Playing <==> p.state == Stopped && entries != []
    ensures q.state != Playing ==> q.state == Stopped
    ensures p.state != Stopped ==> q.delay == p.delay && q.queue == p.queue
    ensures p.state == Stopped ==>
              q.delay == baseSeconds * 1000
              && q.queue == Queue(entries, StartIndex(r, |entries|, randMax))
              && 0 <= q.queue.startIndex <= |entries|
  {
    if p.state == Stopped then
      Player(if entries == [] then Stopped else Playing,
             baseSeconds * 1000,
             Queue(entries, StartIndex(r, |entries|, randMax)))
    else
      p.(state := Stopped)
  }

  /** `onSpeedUp`: `floor(delay / 1.25)`.  Because 1.25 is 5/4 exactly, and
      Dafny's division by a positive number rounds down, this is
      `(4 * delay) / 5`. */
  function SpeedUpDelay(delay: int): (d: int)
    ensures 5 * d <= 4 * delay < 5 * d + 5
    ensures delay >= 0 ==> 0 <= d <= delay
    ensures delay > 0 ==> d < delay
  {
    (4 * delay) / 5
  }

  function SpeedUp(p: Player): (q: Player)
    ensures q.state == p.state && q.queue == p.queue
    ensures q.delay == SpeedUpDelay(p.delay)
    ensures p.delay >= 0 ==> 0 <= q.delay <= p.delay
  {
    p.(delay := SpeedUpDelay(p.delay))
  }

  /** `times` presses of the speed-up button. */
  function SpeedUps(delay: int, times: nat): int
    decreases times
  {
    if times == 0 then delay else SpeedUps(SpeedUpDelay(delay), times - 1)
  }

  /** Pressing speed-up three times on a one-second delay gives 512 ms. */
  lemma SpeedUpThreeTimes()
    ensures SpeedUps(1000, 3) == 512
  {
    assert SpeedUpDelay(1000) == 800;
    assert SpeedUpDelay(800) == 640;
    assert SpeedUpDelay(640) == 512;
  }

  /** Repeated speed-ups never lengthen a non-negative delay, never make it
      negative, and more presses never give a longer delay. */
  lemma {:induction false} SpeedUpsMonotone(delay: int, fewer: nat, more: nat)
    requires delay >= 0 && fewer <= more
    ensures 0 <= SpeedUps(delay, more) <= SpeedUps(delay, fewer) <= delay
    decreases more
  {
    if fewer == 0 {
      if more > 0 {
        SpeedUpsMonotone(SpeedUpDelay(delay), 0, more - 1);
      }
    } else {
      SpeedUpsMonotone(SpeedUpDelay(delay), fewer - 1, more - 1);
    }
  }

  /** Two presses of the start button.  From `Stopped` with a non-empty list
      the player ends up stopped again, holding the delay and queue of the
      first press.  With an empty list the player never leaves `Stopped`, so
      the second press starts afresh.  From any other state with a non-empty
      list it ends up playing a fresh copy of the list. */
  lemma StartTwice(p: Player, entries: seq<string>, baseSeconds: int, r1: int, r2: int, randMax: int)
    requires 0 < randMax && 0 <= r1 <= randMax && 0 <= r2 <= randMax
    ensures var once := StartPlay(p, entries, baseSeconds, r1, randMax);
            var twice := StartPlay(once, entries, baseSeconds, r2, randMax);
            if entries == [] then
              twice == Player(Stopped, baseSeconds * 1000, Queue([], 0))
            else if p.state == Stopped then
              twice == once.(state := Stopped)
            else
              twice.state == Playing && twice.delay == baseSeconds * 1000
              && twice.queue == Queue(entries, StartIndex(r2, |entries|, randMax))
  {
  }

  /** The buttons a user can press on the playback controls. */
  datatype Command =
    | StartStop(entries: seq<string>, baseSeconds: int, r: int)
    | SpeedUpPressed

  /** Every random value drawn lies in `[0, RAND_MAX]`. */
  predicate RandomInRange(commands: seq<Command>, randMax: int) {
    forall i :: 0 <= i < |commands| ==>
      (commands[i].StartStop? ==> 0 <= commands[i].r <= randMax)
  }

  /** Every base delay entered is non-negative. */
  predicate NonNegativeBases(commands: seq<Command>) {
    forall i :: 0 <= i < |commands| ==>
      (commands[i].StartStop? ==> commands[i].baseSeconds >= 0)
  }

  function Step(p: Player, command: Command, randMax: int): Player
    requires 0 < randMax
    requires command.StartStop? ==> 0 <= command.r <= randMax
  {
    match command
    case StartStop(entries, baseSeconds, r) => StartPlay(p, entries, baseSeconds, r, randMax)
    case SpeedUpPressed => SpeedUp(p)
  }

  /** The player after a sequence of presses on the playback controls. */
  function Run(p: Player, commands: seq<Command>, randMax: int): Player
    requires 0 < randMax && RandomInRange(commands, randMax)
    decreases |commands|
  {
    if commands == [] then p
    else
      assert RandomInRange(commands[1..], randMax) by {
        forall i | 0 <= i < |commands[1..]| ensures commands[1..][i] == commands[i + 1] { }
      }
      Run(Step(p, commands[0], randMax), commands[1..], randMax)
  }

  /** With non-negative base delays (an assumption about the base-delay
      spin box, whose range is set outside the modelled code), the delay stays
      non-negative whatever the user presses, from any player whose delay is
      non-negative, such as `Initial`. */
  lemma {:induction false} DelayStaysNonNegative(p: Player, commands: seq<Command>, randMax: int)
    requires 0 < randMax && RandomInRange(commands, randMax) && NonNegativeBases(commands)
    requires p.delay >= 0
    ensures Run(p, commands, randMax).delay >= 0
    decreases |commands|
  {
    if commands != [] {
      var rest := commands[1..];
      assert RandomInRange(rest, randMax) && NonNegativeBases(rest) by {
        forall i | 0 <= i < |rest| ensures rest[i] == commands[i + 1] { }
      }
      assert commands[0].StartStop? ==> commands[0].baseSeconds >= 0;
      DelayStaysNonNegative(Step(p, commands[0], randMax), rest, randMax);
    }
  }

  /** A freshly constructed window starts with delay 0, so no sequence of
      presses with non-negative base delays makes its delay negative. */
  lemma InitialDelayNonNegative(commands: seq<Command>, randMax: int)
    requires 0 < randMax && RandomInRange(commands, randMax) && NonNegativeBases(commands)
    ensures Run(Initial, commands, randMax).delay >= 0
  {
    DelayStaysNonNegative(Initial, commands, randMax);
  }
}

=== FILE: playlist_edit.dfy ===
/** The list edits of the main window: `addFiles` appends a batch of paths,
    and `onRemoveFiles` deletes the selected rows, processing them from the
    highest row to the lowest so that no deletion shifts a row still to be
    deleted.
 */
module PlaylistEdit {

  /** `addFiles`: the batch goes after the existing entries, both in their
      own order, with no de-duplication. */
  function AddFiles(entries: seq<string>, files: seq<string>): (r: seq<string>)
    ensures |r| == |entries| + |files|
    ensures forall i :: 0 <= i < |entries| ==> r[i] == entries[i]
    ensures forall j :: 0 <= j < |files| ==> r[|entries| + j] == files[j]
    ensures multiset(r) == multiset(entries) + multiset(files)
  {
    entries + files
  }

  /** The entries at positions `base`, `base + 1`, … of `entries` whose
      position is not in `rows`, in their original order. */
  function KeepFrom(entries: seq<string>, rows: set<int>, base: int): (r: seq<string>)
    ensures |r| <= |entries|
  {
    if entries == [] then []
    else
      (if base in rows then [] else [entries[0]]) + KeepFrom(entries[1..], rows, base + 1)
  }

  /** Reference meaning of a multi-row removal: exactly the entries whose row
      is selected disappear; rows outside the list select nothing. */
  function KeepUnselected(entries: seq<string>, rows: set<int>): seq<string> {
    KeepFrom(entries, rows, 0)
  }

  lemma {:induction false} KeepFromAppend(a: seq<string>, b: seq<string>, rows: set<int>, base: int)
    ensures KeepFrom(a + b, rows, base) == KeepFrom(a, rows, base) + KeepFrom(b, rows, base + |a|)
  {
    if a == [] {
      assert a + b == b;
    } else {
      assert (a + b)[0] == a[0];
      assert (a + b)[1..] == a[1..] + b;
      KeepFromAppend(a[1..], b, rows, base + 1);
    }
  }

  /** Only the selected rows that fall inside the covered positions matter. */
  lemma {:induction false} KeepFromIrrelevant(entries: seq<string>, rows: set<int>, rows': set<int>, base: int)
    requires forall x :: base <= x < base + |entries| ==> (x in rows <==> x in rows')
    ensures KeepFrom(entries, rows, base) == KeepFrom(entries, rows', base)
  {
    if entries != [] {
      KeepFromIrrelevant(entries[1..], rows, rows', base + 1);
    }
  }

  /** With no selected row among the covered positions, everything stays. */
  lemma {:induction false} KeepFromNoneSelected(entries: seq<string>, rows: set<int>, base: int)
    requires forall x :: x in rows ==> !(base <= x < base + |entries|)
    ensures KeepFrom(entries, rows, base) == entries
  {
    if entries != [] {
      KeepFromNoneSelected(entries[1..], rows, base + 1);
      assert entries == [entries[0]] + entries[1..];
    }
  }

  /** With every covered position selected, nothing stays. */
  lemma {:induction false} KeepFromAllSelected(entries: seq<string>, rows: set<int>, base: int)
    requires forall x :: base <= x < base + |entries| ==> x in rows
    ensures KeepFrom(entries, rows, base) == []
  {
    if entries != [] {
      KeepFromAllSelected(entries[1..], rows, base + 1);
    }
  }

  /** Every row of `done` lies above `row`. */
  predicate AllAbove(done: set<int>, row: int) {
    forall x :: x in done ==> x > row
  }

  /** One step of the descending removal: when every row already removed lies
      above `row`, deleting position `row` of the partial result is the same
      as adding `row` to the removed rows.  A row outside the list changes
      nothing. */
  lemma RemoveStep(entries: seq<string>, done: set<int>, row: int)
    requires AllAbove(done, row)
    ensures var kept := KeepUnselected(entries, done);
            if 0 <= row < |entries| then
              row < |kept| && KeepUnselected(entries, done + {row}) == kept[..row] + kept[row + 1..]
            else
              !(0 <= row < |kept|) && KeepUnselected(entries, done + {row}) == kept
  {
    if 0 <= row < |entries| {
      RemoveStepInRange(entries, done, row);
    } else {
      KeepFromIrrelevant(entries, done, done + {row}, 0);
    }
  }

  /** The kept entries around a row below every removed row: all entries
      before it, that entry, and what is kept after it. */
  lemma KeepAround(entries: seq<string>, rows: set<int>, row: int)
    requires 0 <= row < |entries|
    requires forall x :: x in rows ==> x >= row
    ensures KeepUnselected(entries, rows)
            == entries[..row]
               + (if row in rows then [] else [entries[row]])
               + KeepFrom(entries[row + 1..], rows, row + 1)
  {
    var before := entries[..row];
    var rest := entries[row..];
    assert entries == before + rest;
    KeepFromAppend(before, rest, rows, 0);
    KeepFromNoneSelected(before, rows, 0);
    assert rest[0] == entries[row];
    assert rest[1..] == entries[row + 1..];
    assert KeepFrom(rest, rows, row)
           == (if row in rows then [] else [entries[row]]) + KeepFrom(entries[row + 1..], rows, row + 1);
  }

  lemma RemoveStepInRange(entries: seq<string>, done: set<int>, row: int)
    requires AllAbove(done, row) && 0 <= row < |entries|
    ensures var kept := KeepUnselected(entries, done);
            row < |kept| && KeepUnselected(entries, done + {row}) == kept[..row] + kept[row + 1..]
  {
    var rows := done + {row};
    var after := entries[row + 1..];
    KeepAround(entries, done, row);
    KeepAround(entries, rows, row);
    KeepFromIrrelevant(after, done, rows, row + 1);
    var tail := KeepFrom(after, done, row + 1);
    var kept := KeepUnselected(entries, done);
    assert kept == entries[..row] + [entries[row]] + tail;
    assert kept[..row] == entries[..row];
    assert kept[row + 1..] == tail;
  }

  predicate Distinct(rows: seq<int>) {
    forall i, j :: 0 <= i < j < |rows| ==> rows[i] != rows[j]
  }

  predicate Ascending(rows: seq<int>) {
    forall i, j :: 0 <= i < j < |rows| ==> rows[i] <= rows[j]
  }

  predicate StrictlyAscending(rows: seq<int>) {
    forall i, j :: 0 <= i < j < |rows| ==> rows[i] < rows[j]
  }

  lemma PrependAscending(x: int, rows: seq<int>)
    requires Ascending(rows) && forall y :: y in rows ==> x <= y
    ensures Ascending([x] + rows)
  {
    var r := [x] + rows;
    forall i, j | 0 <= i < j < |r| ensures r[i] <= r[j] {
      assert r[j] == rows[j - 1] && rows[j - 1] in rows;
      if i > 0 {
        assert r[i] == rows[i - 1];
      }
    }
  }

  lemma PrependStrictlyAscending(x: int, rows: seq<int>)
    requires StrictlyAscending(rows) && forall y :: y in rows ==> x < y
    ensures StrictlyAscending([x] + rows)
  {
    var r := [x] + rows;
    forall i, j | 0 <= i < j < |r| ensures r[i] < r[j] {
      assert r[j] == rows[j - 1] && rows[j - 1] in rows;
      if i > 0 {
        assert r[i] == rows[i - 1];
      }
    }
  }

  /** Putting a row in front of rows it does not exceed keeps the order. */
  lemma PrependSorted(row: int, rows: seq<int>)
    requires rows == [] || row <= rows[0]
    ensures Ascending(rows) ==> Ascending([row] + rows)
    ensures StrictlyAscending(rows) && row !in rows ==> StrictlyAscending([row] + rows)
  {
    if Ascending(rows) {
      PrependAscending(row, rows);
    }
    if StrictlyAscending(rows) && row !in rows {
      PrependStrictlyAscending(row, rows);
    }
  }

  /** Keeping the first row in front of the tail after inserting a larger row
      into it keeps the order. */
  lemma ConsSorted(first: int, row: int, rest: seq<int>, tail: seq<int>)
    requires first < row
    requires multiset(tail) == multiset(rest) + multiset{row}
    requires Ascending(rest) ==> Ascending(tail)
    requires StrictlyAscending(rest) && row !in rest ==> StrictlyAscending(tail)
    ensures Ascending([first] + rest) ==> Ascending([first] + tail)
    ensures StrictlyAscending([first] + rest) && row !in rest ==> StrictlyAscending([first] + tail)
  {
    var rows := [first] + rest;
    assert rows[0] == first;
    if Ascending(rows) {
      assert Ascending(rest) by {
        forall i, j | 0 <= i < j < |rest| ensures rest[i] <= rest[j] {
          assert rest[i] == rows[i + 1] && rest[j] == rows[j + 1];
        }
      }
      forall y | y in tail ensures first <= y {
        assert y in multiset(tail);
        if y != row {
          assert y in multiset(rest);
          var j :| 0 <= j < |rest| && rest[j] == y;
          assert rows[j + 1] == y;
        }
      }
      PrependAscending(first, tail);
    }
    if StrictlyAscending(rows) && row !in rest {
      assert StrictlyAscending(rest) by {
        forall i, j | 0 <= i < j < |rest| ensures rest[i] < rest[j] {
          assert rest[i] == rows[i + 1] && rest[j] == rows[j + 1];
        }
      }
      forall y | y in tail ensures first < y {
        assert y in multiset(tail);
        if y != row {
          assert y in multiset(rest);
          var j :| 0 <= j < |rest| && rest[j] == y;
          assert rows[j + 1] == y;
        }
      }
      PrependStrictlyAscending(first, tail);
    }
  }

  /** Insertion of one row into an ascending list of rows. */
  function InsertRow(row: int, rows: seq<int>): (r: seq<int>)
    ensures multiset(r) == multiset(rows) + multiset{row}
    ensures Ascending(rows) ==> Ascending(r)
    ensures StrictlyAscending(rows) && row !in rows ==> StrictlyAscending(r)
  {
    if rows == [] || row <= rows[0] then
      PrependSorted(row, rows);
      [row] + rows
    else
      var tail := InsertRow(row, rows[1..]);
      assert rows == [rows[0]] + rows[1..];
      ConsSorted(rows[0], row, rows[1..], tail);
      [rows[0]] + tail
  }

  /** The `qSort` of the selected rows: ascending, the same rows. */
  function SortRows(rows: seq<int>): (r: seq<int>)
    ensures multiset(r) == multiset(rows)
    ensures Ascending(r)
    ensures Distinct(rows) ==> StrictlyAscending(r)
  {
    if rows == [] then []
    else
      var tail := SortRows(rows[1..]);
      assert rows == [rows[0]] + rows[1..];
      assert Distinct(rows) ==> rows[0] !in rows[1..];
      assert rows[0] in tail <==> rows[0] in multiset(rows[1..]);
      InsertRow(rows[0], tail)
  }

  function RowSet(rows: seq<int>): (r: set<int>)
    ensures forall x :: x in r <==> x in rows
  {
    set x | x in rows
  }

  predicate RowsInRange(rows: seq<int>, count: int) {
    forall i :: 0 <= i < |rows| ==> 0 <= rows[i] < count
  }

  /** Sorting keeps the selection: same number of rows, same rows. */
  lemma SortKeepsRows(selection: seq<int>)
    ensures |SortRows(selection)| == |selection|
    ensures RowSet(SortRows(selection)) == RowSet(selection)
  {
    var rows := SortRows(selection);
    assert |multiset(rows)| == |multiset(selection)|;
    forall x ensures x in rows <==> x in selection {
      assert x in rows <==> x in multiset(rows);
      assert x in selection <==> x in multiset(selection);
    }
  }

  /** In strictly ascending rows, every row after position `k` lies above
      the row at `k`. */
  lemma RowsAbove(rows: seq<int>, k: int)
    requires StrictlyAscending(rows) && 0 <= k < |rows|
    ensures RowSet(rows[k..]) == RowSet(rows[k + 1..]) + {rows[k]}
    ensures AllAbove(RowSet(rows[k + 1..]), rows[k])
  {
    assert rows[k..] == [rows[k]] + rows[k + 1..];
    var later := rows[k + 1..];
    forall x | x in later ensures x > rows[k] {
      var j :| 0 <= j < |later| && later[j] == x;
      assert rows[k + 1 + j] == x;
    }
  }

  /** `onRemoveFiles`: sort the selected rows, then delete them from the last
      to the first; a row outside the list is ignored, as the list model's
      `removeRow` refuses it. */
  method RemoveRows(entries: seq<string>, selection: seq<int>) returns (remaining: seq<string>)
    requires Distinct(selection)
    ensures remaining == KeepUnselected(entries, RowSet(selection))
    ensures RowsInRange(selection, |entries|) ==> |remaining| == |entries| - |selection|
  {
    var rows := SortRows(selection);
    SortKeepsRows(selection);
    ghost var inRange := RowsInRange(selection, |entries|);
    assert inRange ==> RowsInRange(rows, |entries|) by {
      if inRange {
        forall i | 0 <= i < |rows| ensures 0 <= rows[i] < |entries| {
          assert rows[i] in RowSet(selection);
        }
      }
    }
    remaining := entries;
    var k := |rows|;
    assert RowSet(rows[k..]) == {};
    RemoveNothing(entries);
    while k > 0
      invariant 0 <= k <= |rows|
      invariant remaining == KeepUnselected(entries, RowSet(rows[k..]))
      invariant inRange ==> |remaining| == |entries| - (|rows| - k)
    {
      k := k - 1;
      var row := rows[k];
      RowsAbove(rows, k);
      RemoveStep(entries, RowSet(rows[k + 1..]), row);
      if 0 <= row < |remaining| {
        remaining := remaining[..row] + remaining[row + 1..];
      }
    }
    assert rows[0..] == rows;
  }

  /** The example of a two-row removal: rows {2, 0} of [a, b, c] leave [b]. */
  lemma RemoveExample()
    ensures KeepUnselected(["a", "b", "c"], {2, 0}) == ["b"]
  {
    assert ["a", "b", "c"][1..] == ["b", "c"];
    assert ["b", "c"][1..] == ["c"];
    assert ["c"][1..] == [];
  }

  /** The rows `first`, …, `first + count - 1`. */
  function RowSpan(first: int, count: nat): (r: set<int>)
    ensures forall x :: x in r <==> first <= x < first + count
    decreases count
  {
    if count == 0 then {} else {first} + RowSpan(first + 1, count - 1)
  }

  /** Removal undoes an append: deleting the rows `addFiles` created gives
      back the list as it was. */
  lemma RemoveAppended(entries: seq<string>, files: seq<string>)
    ensures KeepUnselected(AddFiles(entries, files), RowSpan(|entries|, |files|)) == entries
  {
    var rows := RowSpan(|entries|, |files|);
    KeepFromAppend(entries, files, rows, 0);
    KeepFromNoneSelected(entries, rows, 0);
    KeepFromAllSelected(files, rows, |entries|);
  }

  /** An empty selection removes nothing. */
  lemma {:induction false} RemoveNothing(entries: seq<string>)
    ensures KeepUnselected(entries, {}) == entries
  {
    KeepFromNoneSelected(entries, {}, 0);
  }
}

=== FILE: playlist_file.dfy ===
/** The playlist text format of RandomPlayer: one entry per line, every line
    terminated by the platform's end-of-line sequence, no header and no
    escaping.  `Serialise` is what `savePlaylist` writes, `Parse` is what
    `loadPlaylist` reads back, and the two load/save handlers wrap them with
    the open-failure paths.
 */
module PlaylistFile {

  /** The terminator `endl` produces on a text-mode file: "\n" on Unix-like
      systems, "\r\n" on Windows. */
  datatype LineEnding = LF | CRLF

  function Terminator(eol: LineEnding): (t: string)
    ensures |t| > 0 && t[|t| - 1] == '\n'
    ensures forall i :: 0 <= i < |t| - 1 ==> t[i] == '\r'
  {
    match eol
    case LF => "\n"
    case CRLF => "\r\n"
  }

  /** An entry that survives a save/load cycle unchanged: no character that a
      line reader treats as part of a line break. */
  predicate LineBreakFree(entry: string) {
    '\n' !in entry && '\r' !in entry
  }

  predicate AllLineBreakFree(entries: seq<string>) {
    forall i :: 0 <= i < |entries| ==> LineBreakFree(entries[i])
  }

  /** What a text-mode file writes for `s`: every '\n' becomes the platform
      terminator, and nothing else changes. */
  function Translate(s: string, eol: LineEnding): (t: string)
    ensures eol == LF ==> t == s
    ensures '\n' !in s ==> t == s
    ensures |t| >= |s|
  {
    if eol == LF || s == [] then s
    else (if s[0] == '\n' then Terminator(eol) else [s[0]]) + Translate(s[1..], eol)
  }

  /** Under CRLF a line feed inside an entry is written as "\r\n" too. */
  lemma TranslateInnerLineFeed()
    ensures Translate("a\nb", CRLF) == "a\r\nb"
  {
  }

  /** The text `savePlaylist` writes: every entry, as the text-mode file
      translates it, followed by a terminator. */
  function Serialise(entries: seq<string>, eol: LineEnding): (text: string)
    ensures text == "" <==> entries == []
    ensures entries != [] ==> text[|text| - 1] == '\n'
  {
    if entries == [] then ""
    else Translate(entries[0], eol) + Terminator(eol) + Serialise(entries[1..], eol)
  }

  /** Length of the first line of `text`: the position of the first '\n', or
      the whole text when there is none. */
  function LineLength(text: string): (n: nat)
    ensures n <= |text|
    ensures forall i :: 0 <= i < n ==> text[i] != '\n'
    ensures n < |text| ==> text[n] == '\n'
  {
    if text == [] || text[0] == '\n' then 0
    else 1 + LineLength(text[1..])
  }

  /** A line reader drops the carriage return of a "\r\n" terminator, and a
      lone '\r' at the very end of the input. */
  function StripCarriageReturn(line: string): string {
    if |line| > 0 && line[|line| - 1] == '\r' then line[..|line| - 1] else line
  }

  /** The lines `loadPlaylist` collects by reading until the end of the
      stream: a final line without a terminator still counts, and a
      terminator at the very end does not start another (empty) line. */
  function Parse(text: string): (lines: seq<string>)
    ensures lines == [] <==> text == ""
    ensures |lines| <= |text|
    ensures forall i :: 0 <= i < |lines| ==> '\n' !in lines[i]
    decreases |text|
  {
    if text == "" then []
    else
      var n := LineLength(text);
      var rest := if n < |text| then text[n + 1..] else "";
      [StripCarriageReturn(text[..n])] + Parse(rest)
  }

  lemma {:induction false} LineLengthAfter(prefix: string, text: string)
    requires '\n' !in prefix
    ensures LineLength(prefix + text) == |prefix| + LineLength(text)
  {
    if prefix == [] {
      assert prefix + text == text;
    } else {
      assert (prefix + text)[0] == prefix[0] != '\n';
      assert (prefix + text)[1..] == prefix[1..] + text;
      LineLengthAfter(prefix[1..], text);
    }
  }

  /** A line without '\n' followed by a terminator is read as that line,
      and reading resumes right after the '\n'. */
  lemma LineSplit(line: string, rest: string)
    requires '\n' !in line
    ensures var text := line + "\n" + rest;
            LineLength(text) == |line|
            && text[..|line|] == line
            && text[|line| + 1..] == rest
  {
    var text := line + "\n" + rest;
    assert text == line + ("\n" + rest);
    LineLengthAfter(line, "\n" + rest);
    assert text[..|line|] == line;
    assert text[|line| + 1..] == rest;
  }

  /** The first line of a serialised list is its first entry, and the rest of
      the text is the serialised tail. */
  lemma FirstLine(entries: seq<string>, eol: LineEnding)
    requires entries != [] && LineBreakFree(entries[0])
    ensures Parse(Serialise(entries, eol)) == [entries[0]] + Parse(Serialise(entries[1..], eol))
  {
    var e := entries[0];
    var rest := Serialise(entries[1..], eol);
    var text := Serialise(entries, eol);
    var line := if eol == LF then e else e + "\r";
    assert text == line + "\n" + rest;
    assert '\n' !in line;
    LineSplit(line, rest);
    assert StripCarriageReturn(line) == e by {
      if eol == CRLF {
        assert line[..|line| - 1] == e;
      }
    }
  }

  /** Loading what was saved gives back the identical list, for either line
      ending, as long as no entry contains a line-break character. */
  lemma {:induction false} ParseSerialise(entries: seq<string>, eol: LineEnding)
    requires AllLineBreakFree(entries)
    ensures Parse(Serialise(entries, eol)) == entries
  {
    if entries != [] {
      TailLineBreakFree(entries);
      FirstLine(entries, eol);
      ParseSerialise(entries[1..], eol);
      assert entries == [entries[0]] + entries[1..];
    }
  }

  lemma TailLineBreakFree(entries: seq<string>)
    requires entries != [] && AllLineBreakFree(entries)
    ensures LineBreakFree(entries[0]) && AllLineBreakFree(entries[1..])
  {
    var tail := entries[1..];
    forall i | 0 <= i < |tail| ensures LineBreakFree(tail[i]) {
      assert tail[i] == entries[i + 1];
    }
  }

  /** Text as `savePlaylist` writes it on a Unix-like system. */
  predicate WellFormedText(text: string) {
    '\r' !in text && (text == "" || text[|text| - 1] == '\n')
  }

  /** Well-formed non-empty text is its first line, a line feed, and the
      well-formed remainder. */
  lemma SplitWellFormed(text: string) returns (line: string, rest: string)
    requires WellFormedText(text) && text != ""
    ensures text == line + "\n" + rest
    ensures LineBreakFree(line) && WellFormedText(rest)
  {
    var n := LineLength(text);
    assert n < |text| by {
      assert text[|text| - 1] == '\n';
    }
    line := text[..n];
    rest := text[n + 1..];
    assert text == line + "\n" + rest by {
      assert text[n] == '\n';
    }
    assert '\n' !in line by {
      FirstLineFree(text);
    }
    SliceKeepsOut(text, '\r', 0, n);
    SliceKeepsOut(text, '\r', n + 1, |text|);
    assert rest == "" || rest[|rest| - 1] == text[|text| - 1];
  }

  /** The first line holds no line feed. */
  lemma FirstLineFree(text: string)
    ensures '\n' !in text[..LineLength(text)]
  {
    var line := text[..LineLength(text)];
    forall i | 0 <= i < |line| ensures line[i] != '\n' {
      assert line[i] == text[i];
    }
  }

  /** A character absent from a text is absent from every slice of it. */
  lemma SliceKeepsOut(text: string, c: char, from: int, to: int)
    requires c !in text && 0 <= from <= to <= |text|
    ensures c !in text[from..to]
  {
    var slice := text[from..to];
    forall i | 0 <= i < |slice| ensures slice[i] != c {
      assert slice[i] == text[from + i];
    }
  }

  /** The other direction of the round trip: a file of '\n'-terminated lines
      without carriage returns is rewritten character for character by load then save. */
  lemma {:induction false} SerialiseParse(text: string)
    requires WellFormedText(text)
    ensures AllLineBreakFree(Parse(text))
    ensures Serialise(Parse(text), LF) == text
    decreases |text|
  {
    if text != "" {
      var line, rest := SplitWellFormed(text);
      LineSplit(line, rest);
      SerialiseParse(rest);
      assert StripCarriageReturn(line) == line;
      assert Parse(text) == [line] + Parse(rest);
    }
  }

  /** The result of opening a file: unreadable, or readable with some text. */
  datatype FileContents = Unopenable | Contents(text: string)

  datatype LoadResult = LoadResult(ok: bool, entries: seq<string>)

  /** `loadPlaylist`: a file that cannot be opened reports failure and keeps
      the current list; otherwise the parsed lines replace the whole list. */
  function LoadPlaylist(current: seq<string>, file: FileContents): (r: LoadResult)
    ensures !r.ok ==> r.entries == current
    ensures r.ok <==> file.Contents?
    ensures r.ok ==> r.entries == Parse(file.text) && |r.entries| <= |file.text|
  {
    match file
    case Unopenable => LoadResult(false, current)
    case Contents(text) => LoadResult(true, Parse(text))
  }

  /** `savePlaylist`: the file written, or `Unopenable` when the file cannot
      be opened for writing (which the source reports as `false`). */
  function SavePlaylist(entries: seq<string>, eol: LineEnding, canOpen: bool): (written: FileContents)
    ensures written.Contents? <==> canOpen
    ensures written.Contents? ==> written.text == Serialise(entries, eol)
    ensures written.Contents? ==> (written.text == "" <==> entries == [])
  {
    if canOpen then Contents(Serialise(entries, eol)) else Unopenable
  }

  /** Saving a list and loading the file into any window restores exactly
      that list. */
  lemma SaveThenLoad(current: seq<string>, entries: seq<string>, eol: LineEnding)
    requires AllLineBreakFree(entries)
    ensures LoadPlaylist(current, SavePlaylist(entries, eol, true)) == LoadResult(true, entries)
  {
    ParseSerialise(entries, eol);
  }

  /** A last line without a terminator is still read. */
  lemma UnterminatedLine(line: string)
    requires line != "" && LineBreakFree(line)
    ensures Parse(line) == [line]
  {
    LineLengthAfter(line, "");
    assert line + "" == line;
    assert line[..|line|] == line;
  }

  /** A Windows-style file whose last line lacks its terminator: the
      carriage return is dropped and the last line is still read. */
  lemma CrLfWithoutFinalTerminator(first: string, last: string)
    requires LineBreakFree(first) && LineBreakFree(last) && last != ""
    ensures Parse(first + "\r\n" + last) == [first, last]
  {
    var line := first + "\r";
    assert first + "\r\n" + last == line + "\n" + last;
    assert '\n' !in line;
    LineSplit(line, last);
    assert line[..|line| - 1] == first;
    UnterminatedLine(last);
  }
}
